=== FILE: README.md ===
# templateman command line, modelled in Dafny

templateman is a command-line template manager. It stores small Python
scripts ("templates"), installs them into a storage directory and runs one
against a working directory. Before the script runs, its `template_info`
parameters (name, author, output directory) are set from command-line flags.

This project models the command-line core as pure functions over an
explicit process state and proves properties of them. The state records the
`running` flag, the `template_info` map, what was written to stderr and
stdout, and whether `sys.exit(1)` ended the process.

| module | file | models |
|---|---|---|
| `Wrappers` | `wrappers.dfy` | `Option` |
| `PosixPath` | `posix_path.dfy` | POSIX `os.path.isabs`, `join`, `split` and `splitext` as string functions |
| `Templateman` | `templateman.dfy` | `templateman/__init__.py`: the `template_info` defaults, `print_error`, `abort` and `require_arguments` |
| `ArgParse` | `arg_parse.dfy` | `parse_args`: a declarative characterisation, a recursive definition and the original index loop with its `skip` variable |
| `Cli` | `cli.dfy` | `templateman/cli.py` (see below) |
| `Entry` | `entry.dfy` | `main` of `templateman/__main__.py` and the whole CLI over the built-in commands |

`Cli` covers these parts of `templateman/cli.py`:
- the command registry and `exec_command`;
- `run`: template resolution, the option table, and the existence, open and execute steps;
- `install`: the source path and the destination name;
- `help`;
- the `"<Kind>: <message>"` text the `*_exc_safe` wrappers make of an exception.

Some of what the commands see comes from outside the model. It arrives in an
`Env` value:
- the working directory;
- the result of `resolve_template_directory` (a path or `None`);
- the result of listing the storage directory (`None` when listing raised);
- the set of paths that exist;
- the fault, if any, raised by `mkdir`, `shutil.copy` and `open`;
- whether the template's code completes or raises.

`abort` while `running` ends the process with status 1, and the model treats
that as a terminal `Exited(1)` status. While not running, `abort` does
nothing, and the code after it goes on. That is why `run` still executes the
script after a bad option when it is not running
(`Cli.RunContinuesAfterBadOptionWhenNotRunning`).

Some behaviour of the code that a reader might not expect, and which the
model keeps:
- An unknown option is reported only after the handlers of the flags before
  it have written `template_info`.
- With an extension-less name and no storage directory, `run` aborts with
  "Can't resolve users home directory…". It does not fall back to the
  working directory.
- `help` prints `HELP`.
- `exec_command` raises with the text `Unknown comman '<name>'`; the model
  keeps that spelling.

## Model

| member | source | states |
|---|---|---|
| PosixPath.SplitExt | templateman/cli.py:160 | root followed by extension is the whole path; the extension is empty or one dot followed by neither dots nor separators |
| PosixPath.SplitExtFindsExtension | templateman/cli.py:160 | an extension is split off exactly when the final component has a dot after a non-dot character of that component, so leading dots never start one |
| PosixPath.SplitExtUnique | templateman/cli.py:160 | any root/extension pair with those properties is the one `splitext` returns |
| PosixPath.SplitExtScan | templateman/cli.py:140 | the scan over the final component's leading dots, as `genericpath._splitext` writes it, gives the same split |
| PosixPath.Join | templateman/cli.py:161 | definition of `os.path.join` for two components; properties in `PosixPath.JoinLayout` and `PosixPath.JoinKeepsTail` |
| PosixPath.Split | templateman/cli.py:139 | definition of `os.path.split`; properties in `PosixPath.SplitLayout` |
| PosixPath.JoinLayout | templateman/cli.py:161 | `join(a, b)` is `b` when `b` is absolute, else `a`, one separator when `a` is non-empty and not already ending in one, then `b` |
| PosixPath.SplitLayout | templateman/cli.py:139 | `split` gives a prefix head and a separator-free suffix tail with only separators between them; the head keeps no trailing separator unless everything before the tail is separators, and then it is all of that |
| PosixPath.JoinKeepsTail | templateman/cli.py:130-139 | joining the working directory in front of a path never changes the tail `split` returns |
| PosixPath.JoinedTail | templateman/cli.py:144 | a separator-free name joined under a directory is the tail of the result |
| Templateman.PrintError | templateman/__init__.py:31-36 | definition of `print_error`; properties in `Templateman.PrintErrorLayout` |
| Templateman.PrintErrorLayout | templateman/__init__.py:31-36 | stderr gains exactly `[ ERROR ] `, the message and a newline if and only if asked for; nothing else changes |
| Templateman.Abort | templateman/__init__.py:39-43 | afterwards the flag is off; a running process exits with 1; a process that was not running is unchanged; context and streams untouched |
| Templateman.AbortIdempotent | templateman/__init__.py:39-43 | a second `abort` has no effect, and the exit status stays 1 |
| Templateman.Missing | templateman/__init__.py:24-27 | a name is flagged exactly when it was asked for and its value is the sentinel `UNKNOWN`; absent keys and other values pass |
| Templateman.RequireArguments | templateman/__init__.py:24-28 | definition of `require_arguments`; properties in `Templateman.RequireArgumentsReportsAll`, `Templateman.RequireArgumentsStopsAtFirst` and `Templateman.FreshContextGate` |
| Templateman.RequireArgumentsReportsAll | templateman/__init__.py:24-28 | when not running, every flagged name gets its error line, in argument order, and nothing else changes |
| Templateman.RequireArgumentsStopsAtFirst | templateman/__init__.py:24-28 | when running, the first flagged name is reported and the process exits with 1; with none flagged nothing changes |
| Templateman.FreshContextGate | templateman/__init__.py:16-28 | on the default context only `name` and `author` can be flagged, and exactly the requested ones among them are reported |
| ArgParse.ParseArgs | templateman/cli.py:70-91 | definition of `parse_args` on the remaining tokens; properties in `ArgParse.ParseArgsExplained`, `ArgParse.ParseArgsCharacterised` and `ArgParse.ParseArgsLoop` |
| ArgParse.ParseArgsExplained | templateman/cli.py:70-91 | the parse is a sequence of recognised flags, each followed by exactly its arity of values, covering a prefix of the tokens, followed by the reason it stopped |
| ArgParse.ExplainsUnique | templateman/cli.py:70-91 | at most one parse explains a token list |
| ArgParse.ParseArgsCharacterised | templateman/cli.py:70-91 | a result explains the tokens if and only if it is what `parse_args` produces |
| ArgParse.ExplainsFirst | templateman/cli.py:82-90 | the first handler receives exactly the `arity` tokens after its flag, and scanning resumes after them |
| ArgParse.ParseArgsLoop | templateman/cli.py:70-91 | the index loop with its `skip` variable computes the same calls and error |
| ArgParse.ParseTokens | templateman/cli.py:70-91 | flag groups written out one after another parse back into exactly those calls, with no error |
| ArgParse.LastValues | templateman/cli.py:90 | what a handler last received: nothing exactly when no call went to it, otherwise the values of one of its calls |
| ArgParse.LastValuesIsLast | templateman/cli.py:90 | last occurrence wins: the reported values are those of a call to the handler after which no call goes to it |
| ArgParse.GroupOrderIrrelevant | tests/arg_parse_tests.py:28-35 | reordering whole flag groups leaves every handler with the same values when no two groups share a handler |
| ArgParse.ThreeOptionsInOrder | tests/arg_parse_tests.py:15-26 | the test's handlers of arity 0, 1 and 2 receive `()`, `('2',)` and `('3', '3')` |
| ArgParse.ThreeOptionsReordered | tests/arg_parse_tests.py:28-35 | the reordered command line gives the same three values |
| ArgParse.ThreeOptionsMissingValue | tests/arg_parse_tests.py:45-55 | a flag lacking its value is the missing-values error and records no call, on the test's one-entry table and on the three-entry one |
| ArgParse.ThreeOptionsUnknownFirst | tests/arg_parse_tests.py:65-75 | an unknown first token is the unknown-option error, and the known flag after it is not called, on the test's one-entry table and on the three-entry one |
| Cli.Describe | templateman/cli.py:21-56 | definition of the `"<Kind>: <message>"` text; properties in `Cli.DescribeLayout` |
| Cli.DescribeLayout | templateman/cli.py:21-27 | the fault text is the class name, `: `, then the message, and is never empty |
| Cli.Register | templateman/cli.py:59-61 | the name is added, maps to the new handler, and other entries keep theirs |
| Cli.BuiltinsByName | templateman/cli.py:102-154 | exactly `help`, `install` and `run` are registered, each under its function name |
| Cli.ExecCommand | templateman/cli.py:64-67 | an unregistered name raises `RuntimeError` with the message as written and calls nothing; a registered one calls its handler with the arguments unchanged |
| Cli.RunOptionsTable | templateman/cli.py:184-193 | the table has exactly the six flags, each consuming one value |
| Cli.RunOptionsAliases | templateman/cli.py:184-193 | each field has a long flag and a one-letter short flag with the same handler |
| Cli.RunOptionValues | templateman/cli.py:175-194 | every handler the table calls receives exactly one value |
| Cli.ApplyCallsField | templateman/cli.py:175-182 | a field ends with the first value of the last flag that set it, and keeps its old value if none did |
| Cli.ApplyCallsOther | templateman/cli.py:175-182 | keys the handlers do not write keep their values |
| Cli.Resolve | templateman/cli.py:160-173 | a name with an extension is taken under the working directory and storage is never consulted; a name without one is taken from a successful storage listing that contains it, falls back to the working directory otherwise, and has nothing to resolve without storage |
| Cli.RunCommand | templateman/cli.py:153-220 | definition of `run`; properties in `Cli.RunLiveIffSucceeds`, `Cli.RunRejectsNoArgument`, `Cli.RunNoStorageAborts`, `Cli.RunExecutesResolvedScript`, `Cli.RunExecutesWhenReady`, `Cli.RunStopsOnBadOption` and `Cli.RunReportsIffExits` |
| Cli.RunScript | templateman/cli.py:194-220 | definition of `run` once the path is resolved; properties in `Cli.RunScriptRejectsUnreadable`, `Cli.RunScriptExecutesWithOptions` and `Cli.RunReportsIffExits` |
| Cli.ApplyOptions | templateman/cli.py:175-194 | definition of the option handling of `run`; properties in `Cli.ApplyOptionsResult` |
| Cli.Execute | templateman/cli.py:196-220 | definition of the existence, open and execute steps; properties in `Cli.ExecuteRejectsUnreadable`, `Cli.ExecuteReportsIffExits` and `Cli.ExecuteReportsFault` |
| Cli.ApplyOptionsResult | templateman/cli.py:194 | the handlers write `template_info` first; an error then adds one error line and aborts; a clean parse changes only `template_info` |
| Cli.RunExecutesResolvedScript | templateman/cli.py:153-220 | a script runs only from the resolved path, after it was found and opened, and, while running, only after a clean parse |
| Cli.RunExecutesWhenReady | templateman/cli.py:194-220 | a resolved script that exists and opens is executed when the options parse cleanly or the CLI is not running, with the `template_info` the flags wrote; the process stays live exactly when the script completes or `abort` has no effect |
| Cli.RunLiveIffSucceeds | templateman/cli.py:153-220 | while running, `run` stays live exactly when it has an argument, the template resolves, the options parse cleanly and the script exists, opens and completes; every other path exits |
| Cli.RunRejectsNoArgument | templateman/cli.py:154-157 | no argument: the usage line, an abort, nothing executed, `template_info` untouched |
| Cli.RunNoStorageAborts | templateman/cli.py:159-169 | a name without an extension and no storage directory: the home-directory error line, an abort, nothing executed |
| Cli.ExecuteRejectsUnreadable | templateman/cli.py:196-207 | a script that does not exist or does not open: the "Can't find file" or "Can't open file" line with its path, an abort, nothing executed |
| Cli.RunScriptRejectsUnreadable | templateman/cli.py:194-207 | the same after the options were applied, with `template_info` keeping what the flags wrote |
| Cli.RunScriptExecutesWithOptions | templateman/cli.py:194-211 | a script that exists and opens is executed with the `template_info` the flags wrote; when it completes nothing else changes |
| Cli.RunStopsOnBadOption | templateman/cli.py:194-200 | while running, a bad option ends `run` with status 1 before anything is executed, after the earlier flags' handlers ran, with the parser's one error line |
| Cli.RunContinuesAfterBadOptionWhenNotRunning | templateman/cli.py:194-211 | while not running, the error line is written and the resolved script still runs |
| Cli.RunWithName | templateman/cli.py:153-211 | `run script.py --name Widget` runs `script.py` from the working directory with `name` set to `Widget` and no error |
| Cli.InstallCommand | templateman/cli.py:107-150 | definition of `install`; properties in `Cli.InstallCopies`, `Cli.InstallLiveIffCopies`, `Cli.InstallSucceeds`, `Cli.InstallCreatesStorage`, `Cli.InstallStoresUnderStem`, `Cli.InstallRejectsNoHome`, `Cli.InstallRejectsMkdirFault`, `Cli.InstallRejectsBadSource` and `Cli.InstallRejectsCopyFault` |
| Cli.InstallNameNoSep | templateman/cli.py:139-140 | the destination name never contains a separator |
| Cli.InstallCopies | templateman/cli.py:108-150 | a copy is made if and only if the storage directory is known and exists or can be created, an argument is given, its source exists and the copy does not fault; it is of that source into the storage directory, under the name derived from the source, and the process is unchanged |
| Cli.InstallSucceeds | templateman/cli.py:125-144 | under those conditions the source is copied to the storage directory under its stem and nothing is reported |
| Cli.InstallCreatesStorage | templateman/cli.py:116-123 | the storage directory is created exactly when it is known, missing and `mkdir` succeeds; a failed `mkdir` ends a running CLI with 1; after a creation, the next install does not create it again |
| Cli.InstallStoresUnderStem | templateman/cli.py:130-144 | the destination is the storage directory joined with the source's last segment minus its extension, and that name is the destination's tail |
| Cli.InstallRejectsBadSource | templateman/cli.py:125-137 | a missing argument or a non-existent source writes its error line, aborts and copies nothing |
| Cli.InstallLiveIffCopies | templateman/cli.py:108-150 | while running, `install` stays live exactly when it copies |
| Cli.InstallRejectsNoHome | templateman/cli.py:109-114 | no home directory: its error line, an abort, no directory created and nothing copied |
| Cli.InstallRejectsMkdirFault | templateman/cli.py:116-123 | a storage directory that cannot be created: the error line ending in `Kind: message`, an abort, nothing copied |
| Cli.InstallRejectsCopyFault | templateman/cli.py:144-150 | a copy that raises: `Install failed:`, a newline and `Kind: message`, an abort, nothing copied |
| Cli.InstallHello | templateman/cli.py:139-140 | `/tmp/x/hello.py` is stored as `hello` |
| Cli.InstallReportsIffExits | templateman/cli.py:108-150 | while running, `install` either writes no error and stays live, or exits with 1 after appending one report that starts with `[ ERROR ] ` and ends in a newline, keeping the earlier stderr in front |
| Cli.ExecuteReportsIffExits | templateman/cli.py:196-220 | the same for the existence, open and execute steps of `run` |
| Cli.ExecuteReportsFault | templateman/cli.py:209-217 | a script that raises is reported as the header line, a newline and `Kind: message`; the running CLI exits with 1 and the script counts as executed |
| Cli.RunReportsIffExits | templateman/cli.py:153-220 | the same for all of `run` |
| Cli.Handle | templateman/cli.py:102-220 | definition of calling a built-in command's function; properties in `Cli.HandleReportsIffExits` and `Entry.CliHelp` |
| Cli.HandleReportsIffExits | templateman/cli.py:102-220 | the same for every built-in command |
| Entry.Program | templateman/__main__.py:14-26 | no arguments: help and 0; an unregistered command: one error line, 1, `running` untouched, nothing dispatched; otherwise `running` is on, the handler gets `args[1:]`, and the ending is `SystemExit(1)` when it aborted, else 0; the `RuntimeError` of `exec_command` never escapes |
| Entry.ProgramAsWritten | templateman/__main__.py:14-26 | definition of `main` as written; properties in `Entry.EmptyArgsRaisesAsWritten` and `Entry.AsWrittenAgreesWithArguments` |
| Entry.EmptyArgsRaisesAsWritten | templateman/__main__.py:15-17 | as written, no arguments end in an escaping `AttributeError` and no help is shown |
| Entry.AsWrittenAgreesWithArguments | templateman/__main__.py:19-26 | on non-empty arguments the code as written and the corrected `main` agree |
| Entry.CliExitsZeroIffNoError | templateman/__main__.py:14-30 | the CLI exits with 0 or 1, and with 0 exactly when it wrote no error line |
| Entry.CliDispatchesByName | templateman/__main__.py:19-25 | a command is dispatched exactly when it is `help`, `install` or `run`, to the function of that name, with the remaining arguments |
| Entry.CliHelp | templateman/cli.py:102-104 | `help` prints `HELP` and nothing to stderr, and the process returns 0 |

## Left out

- Executing the template (`exec(compile(...))` and `file.close()`) is dynamic code execution. Only its outcome is modelled: the script completes or raises a fault with a kind and a message.
- A `SystemExit` raised inside the template is not modelled. The template can raise one by calling `abort` itself, and it would pass through `run`'s `except Exception`.
- Filesystem effects (`os.mkdir`, `shutil.copy`, `os.listdir`, `open`, `os.path.exists`) are I/O. Their results are inputs in `Env`, and a successful copy is recorded as a `Copy` value.
- The model treats `os.path.exists(template_dir)` and `mkdir` as independent inputs.
- `resolve_template_directory` reads the home directory and `PY_TEMPLATES_DIR`, which are environment lookups. Its result is an optional path in `Env`.
- `create_directory`, `create_file`, `copy_item` and `run_command` in `templateman/__init__.py` are helpers for templates doing I/O and subprocess work. They are not part of the command-line core.
- `print_help`: `main` calls it, but `templateman/cli.py` does not define it. `Entry.Program` records it as a "help printed" event.
- The `list` and `remove` commands are not in `templateman/cli.py` and are not part of this model.
- Output streams are strings. Interleaving with other writers and buffering are not modelled.
- Templateman.FreshContextGate: requires an absolute working directory, as `os.getcwd()` always returns one, so that it never equals the sentinel `UNKNOWN`.
- Cli.ApplyCalls: a call with no values writes nothing, where Python would raise `IndexError`. `Cli.RunOptionValues` shows the option table never makes such a call.

## Findings

| source | as written | input that shows it | evidently intended | confidence | as-written member | corrected member |
|---|---|---|---|---|---|---|
| templateman/__main__.py:16 | calls `cli.print_help(None)`, which `templateman/cli.py` does not define, so the lookup raises `AttributeError` | `main([])` | show the help text and return 0 | high; not executed | Entry.ProgramAsWritten, Entry.EmptyArgsRaisesAsWritten | Entry.Program |

=== FILE: arg_parse.dfy ===
/**
  `parse_args` of `templateman/cli.py`: a left-to-right scan of a token list
  against an option table. Every flag position must hold a key of the table;
  a known flag hands exactly its arity of following tokens to its handler, and
  those tokens are never looked at as flags. Scanning stops at the first
  unknown flag or at a flag with too few tokens after it.

  A handler is recorded as a `Call` carrying its identity `H` (aliases such as
  `-n` and `--name` share one handler) and the values it was given; the caller
  decides what the calls do.
*/
module ArgParse {
  import opened Wrappers
  import Templateman

  /** One entry of the option table: how many tokens the flag consumes and who handles them. */
  datatype Spec<H> = Spec(arity: nat, handler: H)

  /** A handler invocation: the flag that triggered it, the handler and the tokens it received. */
  datatype Call<H> = Call(flag: string, handler: H, values: seq<string>)

  datatype ParseError = UnknownOption(token: string) | MissingValues(flag: string)

  /** The handlers that ran, in order, and the error that stopped the scan, if any. */
  datatype Parsed<H> = Parsed(calls: seq<Call<H>>, error: Option<ParseError>)

  /** The tokens a sequence of calls accounts for: each flag followed by its values. */
  function Tokens<H>(calls: seq<Call<H>>): seq<string> {
    if |calls| == 0 then [] else [calls[0].flag] + calls[0].values + Tokens(calls[1..])
  }

  /** `c` is what the table makes of its flag: the flag's handler, given exactly its arity of values. */
  ghost predicate Recognised<H>(options: map<string, Spec<H>>, c: Call<H>) {
    c.flag in options && c.handler == options[c.flag].handler && |c.values| == options[c.flag].arity
  }

  /** Why the scan stopped on the unconsumed tokens `rest`. */
  ghost predicate Stops<H>(options: map<string, Spec<H>>, rest: seq<string>, error: Option<ParseError>) {
    match error
    case None => rest == []
    case Some(UnknownOption(t)) => rest != [] && rest[0] == t && t !in options
    case Some(MissingValues(f)) => rest != [] && rest[0] == f && f in options && |rest| < 1 + options[f].arity
  }

  /**
    The declarative description of a parse: the recorded calls, each a
    recognised flag with its values, cover a prefix of `args` group after
    group, and the tokens after that prefix explain the error (none left, an
    unknown flag, or a flag short of values).
  */
  ghost predicate Explains<H>(args: seq<string>, options: map<string, Spec<H>>, r: Parsed<H>) {
    && (forall c :: c in r.calls ==> Recognised(options, c))
    && |Tokens(r.calls)| <= |args|
    && args[..|Tokens(r.calls)|] == Tokens(r.calls)
    && Stops(options, args[|Tokens(r.calls)|..], r.error)
  }

  /** `parse_args(args, options)`, with the handler calls recorded instead of run. */
  function ParseArgs<H>(args: seq<string>, options: map<string, Spec<H>>): Parsed<H>
    decreases |args|
  {
    if |args| == 0 then Parsed([], None)
    else if args[0] !in options then Parsed([], Some(UnknownOption(args[0])))
    else
      var spec := options[args[0]];
      if |args| < 1 + spec.arity then Parsed([], Some(MissingValues(args[0])))
      else
        var rest := ParseArgs(args[1 + spec.arity..], options);
        Parsed([Call(args[0], spec.handler, args[1..1 + spec.arity])] + rest.calls, rest.error)
  }

  lemma TokensCons<H>(c: Call<H>, calls: seq<Call<H>>)
    ensures Tokens([c] + calls) == [c.flag] + c.values + Tokens(calls)
  {
    assert ([c] + calls)[1..] == calls;
  }

  /** A recognised flag with its values, in front of an explained remainder, is explained. */
  lemma ExplainsCons<H>(args: seq<string>, options: map<string, Spec<H>>, c: Call<H>, rest: Parsed<H>)
    requires |args| > 0 && args[0] == c.flag && Recognised(options, c)
    requires 1 + |c.values| <= |args| && args[1..1 + |c.values|] == c.values
    requires Explains(args[1 + |c.values|..], options, rest)
    ensures Explains(args, options, Parsed([c] + rest.calls, rest.error))
  {
    var k := |c.values|;
    TokensCons(c, rest.calls);
    var tail := args[1 + k..];
    var t := Tokens(rest.calls);
    assert args == [c.flag] + c.values + tail;
    assert tail == t + tail[|t|..];
    assert args[1 + k + |t|..] == tail[|t|..];
  }

  /**
    Every result of `ParseArgs` is explained by its tokens: each recorded
    handler received exactly the tokens after its flag, up to the arity, the
    groups follow each other without gaps, and the scan stopped exactly where
    the error says.
  */
  lemma {:induction false} ParseArgsExplained<H>(args: seq<string>, options: map<string, Spec<H>>)
    ensures Explains(args, options, ParseArgs(args, options))
    decreases |args|
  {
    if |args| > 0 && args[0] in options && |args| >= 1 + options[args[0]].arity {
      var spec := options[args[0]];
      var c := Call(args[0], spec.handler, args[1..1 + spec.arity]);
      ParseArgsExplained(args[1 + spec.arity..], options);
      ExplainsCons(args, options, c, ParseArgs(args[1 + spec.arity..], options));
    }
  }

  /** `ParseArgs` is the only result its description allows. */
  lemma ParseArgsCharacterised<H>(args: seq<string>, options: map<string, Spec<H>>, r: Parsed<H>)
    ensures Explains(args, options, r) <==> r == ParseArgs(args, options)
  {
    ParseArgsExplained(args, options);
    if Explains(args, options, r) {
      ExplainsUnique(args, options, r, ParseArgs(args, options));
    }
  }

  /** Slices of a prefix are slices of the whole. */
  lemma PrefixSlice(a: seq<string>, t: seq<string>, i: int, j: int)
    requires |t| <= |a| && a[..|t|] == t && 0 <= i <= j <= |t|
    ensures a[i..j] == t[i..j]
  {
    forall k | i <= k < j
      ensures a[k] == t[k]
    {
      assert a[..|t|][k] == a[k];
    }
  }

  /** The first recorded call is the first token with the next `arity` tokens; the rest explains the remainder. */
  lemma ExplainsFirst<H>(args: seq<string>, options: map<string, Spec<H>>, r: Parsed<H>)
    requires Explains(args, options, r) && |r.calls| > 0
    ensures Recognised(options, r.calls[0])
    ensures 1 + |r.calls[0].values| <= |args|
    ensures args[0] == r.calls[0].flag
    ensures args[1..1 + |r.calls[0].values|] == r.calls[0].values
    ensures Explains(args[1 + |r.calls[0].values|..], options, Parsed(r.calls[1..], r.error))
  {
    var c := r.calls[0];
    assert c in r.calls;
    var k := |c.values|;
    var more := r.calls[1..];
    TokensCons(c, more);
    assert [c] + more == r.calls;
    var t := Tokens(r.calls);
    var t' := Tokens(more);
    assert t == [c.flag] + c.values + t';
    PrefixSlice(args, t, 0, 1);
    PrefixSlice(args, t, 1, 1 + k);
    PrefixSlice(args, t, 1 + k, |t|);
    assert t[0..1] == [c.flag] && t[1..1 + k] == c.values && t[1 + k..|t|] == t';
    var rest := args[1 + k..];
    assert rest[..|t'|] == args[1 + k..|t|];
    assert rest[|t'|..] == args[|t|..];
    assert forall d :: d in more ==> d in r.calls;
  }

  /** A parse is determined by its description: at most one result explains a token list. */
  lemma {:induction false} ExplainsUnique<H>(args: seq<string>, options: map<string, Spec<H>>, r1: Parsed<H>, r2: Parsed<H>)
    requires Explains(args, options, r1) && Explains(args, options, r2)
    ensures r1 == r2
    decreases |args|
  {
    if |r1.calls| > 0 && |r2.calls| > 0 {
      ExplainsFirst(args, options, r1);
      ExplainsFirst(args, options, r2);
      var c1, c2 := r1.calls[0], r2.calls[0];
      assert c1 == c2;
      ExplainsUnique(args[1 + |c1.values|..], options, Parsed(r1.calls[1..], r1.error), Parsed(r2.calls[1..], r2.error));
      assert r1.calls == [c1] + r1.calls[1..];
      assert r2.calls == [c2] + r2.calls[1..];
    } else if |r1.calls| > 0 {
      ExplainsFirst(args, options, r1);
    } else if |r2.calls| > 0 {
      ExplainsFirst(args, options, r2);
    }
  }

  /**
    The loop of `parse_args` as written: an index over `args` and a `skip`
    marker; positions below `skip` hold option values and are passed over.
  */
  method ParseArgsLoop<H>(args: seq<string>, options: map<string, Spec<H>>) returns (r: Parsed<H>)
    ensures r == ParseArgs(args, options)
  {
    ghost var whole := ParseArgs(args, options);
    var skip := -1;
    var calls: seq<Call<H>> := [];
    for i := 0 to |args|
      invariant skip == -1 ==> i == 0 && calls == []
      invariant skip != -1 ==> i <= skip <= |args|
      invariant whole == Resume(calls, Pending(args, options, skip))
    {
      if skip > i {
        continue;
      }
      assert Pending(args, options, skip) == ParseArgs(args[i..], options);
      var arg := args[i];
      if arg !in options {
        ParseArgsAtStop(args, options, i);
        assert calls + [] == calls;
        return Parsed(calls, Some(UnknownOption(arg)));
      }
      var spec := options[arg];
      var start := i + 1;
      var end := start + spec.arity;
      if |args| < end {
        ParseArgsAtStop(args, options, i);
        assert calls + [] == calls;
        return Parsed(calls, Some(MissingValues(arg)));
      }
      var call := Call(arg, spec.handler, args[start..end]);
      ParseArgsAtFlag(args, options, i);
      ResumeAfter(calls, call, Pending(args, options, end));
      calls := calls + [call];
      skip := end;
    }
    assert calls + [] == calls;
    return Parsed(calls, None);
  }

  /** What is still to be parsed from the position `skip` marks (index 0 before the first flag). */
  function Pending<H>(args: seq<string>, options: map<string, Spec<H>>, skip: int): Parsed<H>
    requires -1 <= skip <= |args|
  {
    ParseArgs(args[if skip == -1 then 0 else skip..], options)
  }

  /** The calls already made, followed by what the remaining tokens produce. */
  function Resume<H>(calls: seq<Call<H>>, pending: Parsed<H>): Parsed<H> {
    Parsed(calls + pending.calls, pending.error)
  }

  lemma ResumeAfter<H>(calls: seq<Call<H>>, call: Call<H>, pending: Parsed<H>)
    ensures Resume(calls, Parsed([call] + pending.calls, pending.error)) == Resume(calls + [call], pending)
  {
    assert calls + ([call] + pending.calls) == (calls + [call]) + pending.calls;
  }

  /** At index `i` of the full token list, an unknown token or a flag short of values stops the parse. */
  lemma ParseArgsAtStop<H>(args: seq<string>, options: map<string, Spec<H>>, i: int)
    requires 0 <= i < |args|
    requires args[i] !in options || |args| < i + 1 + options[args[i]].arity
    ensures ParseArgs(args[i..], options)
      == Parsed([], Some(if args[i] !in options then UnknownOption(args[i]) else MissingValues(args[i])))
  {
    assert args[i..][0] == args[i];
  }

  /** At index `i` of the full token list, a flag with enough values is called with them, and the parse resumes after them. */
  lemma ParseArgsAtFlag<H>(args: seq<string>, options: map<string, Spec<H>>, i: int)
    requires 0 <= i < |args| && args[i] in options && i + 1 + options[args[i]].arity <= |args|
    ensures var spec := options[args[i]];
      var end := i + 1 + spec.arity;
      ParseArgs(args[i..], options)
      == Parsed([Call(args[i], spec.handler, args[i + 1..end])] + ParseArgs(args[end..], options).calls, ParseArgs(args[end..], options).error)
  {
    var s := args[i..];
    var end := i + 1 + options[args[i]].arity;
    assert s[0] == args[i];
    assert s[1..end - i] == args[i + 1..end];
    assert s[end - i..] == args[end..];
  }

  /** The message `parse_args` prints for each way of stopping early. */
  function ErrorMessage(e: ParseError): string {
    match e
    case UnknownOption(t) => "Unknown option '" + t + "'"
    case MissingValues(f) => "Option '" + f + "' expected additional arguments"
  }

  /** The error report of `parse_args`: print the message, then `abort`. */
  function ReportError(p: Templateman.Proc, error: Option<ParseError>): Templateman.Proc {
    match error
    case None => p
    case Some(e) => Templateman.Report(p, ErrorMessage(e))
  }

  /** Option groups that are all recognised parse back into exactly those calls, with no error. */
  lemma ParseTokens<H>(options: map<string, Spec<H>>, calls: seq<Call<H>>)
    requires forall c :: c in calls ==> Recognised(options, c)
    ensures ParseArgs(Tokens(calls), options) == Parsed(calls, None)
  {
    var t := Tokens(calls);
    assert t[..|t|] == t && t[|t|..] == [];
    ParseArgsCharacterised(t, options, Parsed(calls, None));
  }

  /** The values the handler `h` received last, i.e. the value that survives when handlers overwrite state. */
  function LastValues<H(==)>(calls: seq<Call<H>>, h: H): (r: Option<seq<string>>)
    ensures r.None? <==> forall c :: c in calls ==> c.handler != h
    ensures r.Some? ==> exists c :: c in calls && c.handler == h && c.values == r.value
  {
    if |calls| == 0 then None
    else
      var last := calls[|calls| - 1];
      if last.handler == h then Some(last.values)
      else
        var r := LastValues(calls[..|calls| - 1], h);
        assert forall c :: c in calls ==> c in calls[..|calls| - 1] || c == last;
        r
  }

  /**
    Last occurrence wins: the values `LastValues` reports are those of a call
    to `h` after which no other call goes to `h`.
  */
  lemma {:induction false} LastValuesIsLast<H>(calls: seq<Call<H>>, h: H)
    ensures LastValues(calls, h).Some? ==>
      exists i :: 0 <= i < |calls| && calls[i].handler == h && calls[i].values == LastValues(calls, h).value
        && forall j :: i < j < |calls| ==> calls[j].handler != h
  {
    if |calls| > 0 {
      var n := |calls| - 1;
      if calls[n].handler != h {
        var before := calls[..n];
        LastValuesIsLast(before, h);
        if LastValues(calls, h).Some? {
          var i :| 0 <= i < |before| && before[i].handler == h && before[i].values == LastValues(before, h).value
            && forall j :: i < j < |before| ==> before[j].handler != h;
          assert calls[i] == before[i];
          forall j | i < j < |calls|
            ensures calls[j].handler != h
          {
            if j < n {
              assert calls[j] == before[j];
            }
          }
        }
      }
    }
  }

  /** When a single group carries handler `h`, that group's values are what `h` ends with. */
  lemma LastValuesOfOnly<H>(calls: seq<Call<H>>, h: H, c: Call<H>)
    requires c in calls && c.handler == h
    requires forall d :: d in calls && d.handler == h ==> d == c
    ensures LastValues(calls, h) == Some(c.values)
  {
  }

  /**
    Two orderings of the same groups leave every handler with the same
    values, as long as no two different groups share a handler.
  */
  lemma LastValuesPermuted<H>(groups1: seq<Call<H>>, groups2: seq<Call<H>>, h: H)
    requires multiset(groups1) == multiset(groups2)
    requires forall c, d :: c in groups1 && d in groups1 && c.handler == d.handler ==> c == d
    ensures LastValues(groups1, h) == LastValues(groups2, h)
  {
    forall c
      ensures c in groups1 <==> c in groups2
    {
      assert c in groups1 <==> c in multiset(groups1);
      assert c in groups2 <==> c in multiset(groups2);
    }
    if c :| c in groups1 && c.handler == h {
      LastValuesOfOnly(groups1, h, c);
      LastValuesOfOnly(groups2, h, c);
    }
  }

  /**
    Permuting whole option groups (a flag followed by its values) on the
    command line does not change what any handler ends up with, as long as no
    two different groups share a handler.
  */
  lemma GroupOrderIrrelevant<H>(options: map<string, Spec<H>>, groups1: seq<Call<H>>, groups2: seq<Call<H>>, h: H)
    requires forall c :: c in groups1 ==> Recognised(options, c)
    requires multiset(groups1) == multiset(groups2)
    requires forall c, d :: c in groups1 && d in groups1 && c.handler == d.handler ==> c == d
    ensures LastValues(ParseArgs(Tokens(groups1), options).calls, h) == LastValues(ParseArgs(Tokens(groups2), options).calls, h)
  {
    assert forall c :: c in groups2 ==> c in multiset(groups1);
    ParseTokens(options, groups1);
    ParseTokens(options, groups2);
    LastValuesPermuted(groups1, groups2, h);
  }

  /** A table with handlers taking zero, one and two values, as in the parser's own test suite. */
  function ThreeOptions(): map<string, Spec<int>> {
    map["option1" := Spec(0, 0), "option2" := Spec(1, 1), "option3" := Spec(2, 2)]
  }

  /** The three groups of the test command line, in its first order. */
  function ThreeGroups(): seq<Call<int>> {
    [Call("option1", 0, []), Call("option2", 1, ["2"]), Call("option3", 2, ["3", "3"])]
  }

  /** `option1 option2 2 option3 3 3` leaves the handlers with `()`, `('2',)` and `('3', '3')`. */
  lemma ThreeOptionsInOrder()
    ensures var r := ParseArgs(["option1", "option2", "2", "option3", "3", "3"], ThreeOptions());
      && r.error == None
      && LastValues(r.calls, 0) == Some([]) && LastValues(r.calls, 1) == Some(["2"]) && LastValues(r.calls, 2) == Some(["3", "3"])
  {
    var g := ThreeGroups();
    TokensCons(g[2], []);
    TokensCons(g[1], [g[2]]);
    TokensCons(g[0], [g[1], g[2]]);
    assert g == [g[0], g[1], g[2]];
    assert Tokens(g) == ["option1", "option2", "2", "option3", "3", "3"];
    ParseTokens(ThreeOptions(), g);
    LastValuesOfOnly(g, 0, g[0]);
    LastValuesOfOnly(g, 1, g[1]);
    LastValuesOfOnly(g, 2, g[2]);
  }

  /** `option3 3 3 option1 option2 2`, the same groups moved around, leaves the handlers with the same values. */
  lemma ThreeOptionsReordered()
    ensures var r := ParseArgs(["option3", "3", "3", "option1", "option2", "2"], ThreeOptions());
      && r.error == None
      && LastValues(r.calls, 0) == Some([]) && LastValues(r.calls, 1) == Some(["2"]) && LastValues(r.calls, 2) == Some(["3", "3"])
  {
    var g := ThreeGroups();
    var moved := [g[2], g[0], g[1]];
    TokensCons(g[1], []);
    TokensCons(g[0], [g[1]]);
    TokensCons(g[2], [g[0], g[1]]);
    assert Tokens(moved) == ["option3", "3", "3", "option1", "option2", "2"];
    ParseTokens(ThreeOptions(), moved);
    LastValuesOfOnly(moved, 0, g[0]);
    LastValuesOfOnly(moved, 1, g[1]);
    LastValuesOfOnly(moved, 2, g[2]);
  }

  /**
    A flag with nothing after it for its one value is an error and records
    no call, both on the one-entry table of the parser's test and on the
    three-entry table, whose other entries change nothing.
  */
  lemma ThreeOptionsMissingValue()
    ensures ParseArgs(["option2"], map["option2" := Spec(1, 1)]) == Parsed([], Some(MissingValues("option2")))
    ensures ParseArgs(["option2"], ThreeOptions()) == Parsed([], Some(MissingValues("option2")))
  {
  }

  /**
    An unknown first token is an error, and the known flag after it is never
    looked at, on the test's one-entry table as on the three-entry one.
  */
  lemma ThreeOptionsUnknownFirst()
    ensures ParseArgs(["unknown", "option1"], map["option1" := Spec(0, 0)]) == Parsed([], Some(UnknownOption("unknown")))
    ensures ParseArgs(["unknown", "option1"], ThreeOptions()) == Parsed([], Some(UnknownOption("unknown")))
  {
  }
}

=== FILE: cli.dfy ===
/**
  The command layer of `templateman/cli.py`: the command registry and
  `exec_command`, the option table and template resolution of `run`, the
  destination name of `install`, the `help` command, and the
  `"<Kind>: <message>"` text the `*_exc_safe` wrappers make of an exception.

  Everything the commands learn from the machine (the storage directory
  `resolve_template_directory` yields, a directory listing, which paths exist,
  whether `mkdir`, `copy` or `open` raise, and how the template's own code
  ends) arrives in one `Env` value.
*/
module Cli {
  import opened Wrappers
  import opened PosixPath
  import opened Templateman
  import ArgParse

  /** An exception caught at a boundary: its class name and its `str()`. */
  datatype Fault = Fault(kind: string, message: string)

  /** `f"{err.__class__.__name__}: {str(err)}"`. */
  function Describe(f: Fault): string {
    f.kind + ": " + f.message
  }

  /** The class name, a colon and a space, then the message; never empty, so `if error:` always fires on a fault. */
  lemma DescribeLayout(f: Fault)
    ensures var s := Describe(f);
      && |s| == |f.kind| + 2 + |f.message|
      && s[..|f.kind|] == f.kind && s[|f.kind|..|f.kind| + 2] == ": " && s[|f.kind| + 2..] == f.message
      && s != []
  {
  }

  // ---------------------------------------------------------------------------
  // Command registry

  /** The three functions `cli.py` decorates with `@register_command`. */
  datatype Command = Help | Install | Run

  /** The function's `__name__`, the key it is registered under. */
  function CommandName(c: Command): string {
    match c
    case Help => "help"
    case Install => "install"
    case Run => "run"
  }

  /** `register_command`: stores `h` under `name`, replacing an earlier entry of that name. */
  function Register<H>(registry: map<string, H>, name: string, h: H): (r: map<string, H>)
    ensures r.Keys == registry.Keys + {name}
    ensures r[name] == h
    ensures forall k :: k in registry && k != name ==> r[k] == registry[k]
  {
    registry[name := h]
  }

  /** The `commands` dictionary once `cli.py` has been imported. */
  function Builtins(): map<string, Command> {
    Register(Register(Register(map[], CommandName(Help), Help), CommandName(Install), Install), CommandName(Run), Run)
  }

  /** Each built-in command is found under its own function name, and nothing else is registered. */
  lemma BuiltinsByName()
    ensures Builtins().Keys == {"help", "install", "run"}
    ensures forall c: Command :: CommandName(c) in Builtins() && Builtins()[CommandName(c)] == c
  {
  }

  /** What `exec_command` does: call a handler with the arguments, or raise `RuntimeError`. */
  datatype Dispatch<H> = Invoked(handler: H, args: seq<string>) | RuntimeError(message: string)

  /** `exec_command(command, args)`. */
  function ExecCommand<H>(registry: map<string, H>, command: string, args: seq<string>): (r: Dispatch<H>)
    ensures r.RuntimeError? <==> command !in registry
    ensures command in registry ==> r == Invoked(registry[command], args)
    ensures command !in registry ==> r.message == "Unknown comman '" + command + "'"
  {
    if command !in registry then RuntimeError("Unknown comman '" + command + "'")
    else Invoked(registry[command], args)
  }

  // ---------------------------------------------------------------------------
  // The option table of `run`

  /** The three handlers of `run`'s option table. */
  datatype Field = NameField | AuthorField | OutputDirectoryField

  /** The `template_info` key each handler writes `args[0]` into. */
  function FieldKey(f: Field): string {
    match f
    case NameField => NameKey
    case AuthorField => AuthorKey
    case OutputDirectoryField => OutputDirectoryKey
  }

  /** The long spelling of each field's flag, without its leading dashes. */
  function FieldFlag(f: Field): string {
    match f
    case NameField => "name"
    case AuthorField => "author"
    case OutputDirectoryField => "output-directory"
  }

  /** `all_options` of `run`: a long and a short alias per field, each consuming one token. */
  function RunOptions(): map<string, ArgParse.Spec<Field>> {
    map[
      "--name" := ArgParse.Spec(1, NameField),
      "-n" := ArgParse.Spec(1, NameField),
      "--author" := ArgParse.Spec(1, AuthorField),
      "-a" := ArgParse.Spec(1, AuthorField),
      "--output-directory" := ArgParse.Spec(1, OutputDirectoryField),
      "-o" := ArgParse.Spec(1, OutputDirectoryField)
    ]
  }

  /** Six flags, and each takes exactly one value. */
  lemma RunOptionsTable()
    ensures RunOptions().Keys == {"--name", "-n", "--author", "-a", "--output-directory", "-o"}
    ensures forall flag :: flag in RunOptions() ==> RunOptions()[flag].arity == 1
  {
  }

  /** Each field has a long flag, its name after two dashes, and a short one, its initial after one dash. */
  lemma RunOptionsAliases(f: Field)
    ensures var long := "--" + FieldFlag(f);
      long in RunOptions() && RunOptions()[long].handler == f
    ensures var short := ['-', FieldFlag(f)[0]];
      short in RunOptions() && RunOptions()[short].handler == f
  {
    match f
    case NameField => assert "--" + FieldFlag(f) == "--name";
    case AuthorField => assert "--" + FieldFlag(f) == "--author";
    case OutputDirectoryField => assert "--" + FieldFlag(f) == "--output-directory";
  }

  /**
    One handler of `run`: write the first value into the field's key. A call
    always carries one value under `RunOptions` (`RunOptionValues`); a call
    without values writes nothing.
  */
  function ApplyCall(info: map<string, string>, c: ArgParse.Call<Field>): map<string, string> {
    if |c.values| == 0 then info else info[FieldKey(c.handler) := c.values[0]]
  }

  /** Runs the recorded handlers of `run` in order. */
  function ApplyCalls(info: map<string, string>, calls: seq<ArgParse.Call<Field>>): map<string, string> {
    if |calls| == 0 then info
    else ApplyCall(ApplyCalls(info, calls[..|calls| - 1]), calls[|calls| - 1])
  }

  /**
    After the handlers ran, a field holds the first value of the last flag
    that set it, and keeps its old value if no flag did.
  */
  lemma {:induction false} ApplyCallsField(info: map<string, string>, calls: seq<ArgParse.Call<Field>>, f: Field)
    requires forall c :: c in calls ==> |c.values| >= 1
    ensures ArgParse.LastValues(calls, f).Some? ==>
      var v := ArgParse.LastValues(calls, f).value;
      |v| >= 1 && FieldKey(f) in ApplyCalls(info, calls) && ApplyCalls(info, calls)[FieldKey(f)] == v[0]
    ensures ArgParse.LastValues(calls, f).None? && FieldKey(f) in info ==>
      FieldKey(f) in ApplyCalls(info, calls) && ApplyCalls(info, calls)[FieldKey(f)] == info[FieldKey(f)]
  {
    if |calls| > 0 {
      var last := calls[|calls| - 1];
      var before := calls[..|calls| - 1];
      assert forall c :: c in before ==> c in calls;
      assert last in calls;
      ApplyCallsField(info, before, f);
    }
  }

  /** Keys no handler of `run` writes keep their value. */
  lemma {:induction false} ApplyCallsOther(info: map<string, string>, calls: seq<ArgParse.Call<Field>>, k: string)
    requires k in info && k != NameKey && k != AuthorKey && k != OutputDirectoryKey
    ensures k in ApplyCalls(info, calls) && ApplyCalls(info, calls)[k] == info[k]
  {
    if |calls| > 0 {
      ApplyCallsOther(info, calls[..|calls| - 1], k);
    }
  }

  // ---------------------------------------------------------------------------
  // Template resolution in `run`

  datatype Resolution = Script(path: string) | NoStorage

  /**
    Where `run` looks for the template named by its first argument. A name
    with an extension is a path under the working directory and the storage
    directory is never consulted; a name without one is looked up in a
    successful listing of the storage directory, falling back to the working
    directory; without a storage directory there is nothing to resolve.
  */
  function Resolve(arg: string, workingDir: string, storage: Option<string>, listing: Option<seq<string>>): (r: Resolution)
    ensures HasExtension(arg) ==> r == Script(Join(workingDir, arg))
    ensures !HasExtension(arg) && storage.None? ==> r == NoStorage
    ensures !HasExtension(arg) && storage.Some? && listing.Some? && arg in listing.value ==> r == Script(Join(storage.value, arg))
    ensures !HasExtension(arg) && storage.Some? && !(listing.Some? && arg in listing.value) ==> r == Script(Join(workingDir, arg))
  {
    SplitExtFindsExtension(arg);
    var (filename, suffix) := SplitExt(arg);
    var filepath := Join(workingDir, arg);
    if suffix != [] then Script(filepath)
    else if storage.None? then NoStorage
    else if listing.Some? && filename in listing.value then Script(Join(storage.value, filename))
    else Script(filepath)
  }

  // ---------------------------------------------------------------------------
  // The commands

  /** How the template's own code ends when `exec` runs it. */
  datatype ScriptOutcome = Completed | Raises(fault: Fault)

  /**
    What the commands observe of the machine: the working directory, the
    result of `resolve_template_directory`, the result of listing the storage
    directory (`None` when listing raised), the paths that exist, the faults
    `mkdir`, `shutil.copy` and `open` raise, and how the script ends.
  */
  datatype Env = Env(
    workingDir: string,
    storageDir: Option<string>,
    listing: Option<seq<string>>,
    existing: set<string>,
    mkdirFault: Option<Fault>,
    copyFault: Option<Fault>,
    openFault: Option<Fault>,
    script: ScriptOutcome)

  const NoHomeMessage: string := "Can't resolve users home directory for storing template scripts"
  const RunUsage: string := "Command 'run' expected atleast one argument"
  const InstallUsage: string := "Command 'install' expected atleast one argument"
  const ExecFailedMessage: string := "There were errors during the execution of the script:"

  /** The process after `run`, and the path whose text was executed, if any. */
  datatype RunTrace = RunTrace(proc: Proc, executed: Option<string>)

  /** The `run` command. */
  function RunCommand(args: seq<string>, env: Env, p: Proc): RunTrace
    requires p.status == Live
  {
    if |args| < 1 then RunTrace(Report(p, RunUsage), None)
    else
      match Resolve(args[0], env.workingDir, env.storageDir, env.listing)
      case NoStorage => RunTrace(Report(p, NoHomeMessage), None)
      case Script(filepath) => RunScript(filepath, args[1..], env, p)
  }

  /** `run` once the template path is known: parse the options, then open and execute the script. */
  function RunScript(filepath: string, tokens: seq<string>, env: Env, p: Proc): RunTrace
    requires p.status == Live
  {
    var parsedProc := ApplyOptions(tokens, p);
    if parsedProc.status.Exited? then RunTrace(parsedProc, None) else Execute(filepath, env, parsedProc)
  }

  /** `parse_args(args[1:], all_options)`: the handlers write `template_info`, then an error is reported. */
  function ApplyOptions(tokens: seq<string>, p: Proc): Proc {
    var parsed := ArgParse.ParseArgs(tokens, RunOptions());
    ArgParse.ReportError(p.(info := ApplyCalls(p.info, parsed.calls)), parsed.error)
  }

  /**
    The handlers of every recognised flag run before the error, if any, is
    reported; a clean parse touches nothing but `template_info`.
  */
  lemma ApplyOptionsResult(tokens: seq<string>, p: Proc)
    ensures var parsed := ArgParse.ParseArgs(tokens, RunOptions());
      var q := ApplyOptions(tokens, p);
      && q.info == ApplyCalls(p.info, parsed.calls)
      && q.stdout == p.stdout
      && (parsed.error.None? ==> q == p.(info := q.info))
      && (parsed.error.Some? ==>
            && q.stderr == p.stderr + ErrorLine(ArgParse.ErrorMessage(parsed.error.value))
            && !q.running
            && q.status == (if p.running then Exited(1) else p.status))
  {
  }

  /** The existence check, the `open` and the `exec` of the script text. */
  function Execute(filepath: string, env: Env, p: Proc): RunTrace
    requires p.status == Live
  {
    if filepath !in env.existing then RunTrace(Report(p, "Can't find file '" + filepath + "'"), None)
    else if env.openFault.Some? then RunTrace(Report(p, "Can't open file '" + filepath + "'"), None)
    else
      match env.script
      case Completed => RunTrace(p, Some(filepath))
      case Raises(f) => RunTrace(Report(p, ExecFailedMessage + "\n" + Describe(f)), Some(filepath))
  }

  /**
    A script that raises is reported as the fixed header, a newline and
    `Kind: message`, and the running CLI then exits with 1; the script
    still counts as executed.
  */
  lemma ExecuteReportsFault(filepath: string, env: Env, p: Proc, f: Fault)
    requires p.status == Live && p.running
    requires filepath in env.existing && env.openFault.None? && env.script == Raises(f)
    ensures var r := Execute(filepath, env, p);
      && r.proc.stderr == p.stderr + ErrorLine(ExecFailedMessage + "\n" + f.kind + ": " + f.message)
      && r.proc.status == Exited(1)
      && r.executed == Some(filepath)
  {
  }

  /** Every handler `run`'s option table calls receives exactly one value. */
  lemma RunOptionValues(tokens: seq<string>)
    ensures forall c :: c in ArgParse.ParseArgs(tokens, RunOptions()).calls ==> |c.values| == 1
  {
    RunOptionsTable();
    ArgParse.ParseArgsExplained(tokens, RunOptions());
  }

  /** A file is the last path segment of `path` with its extension removed: the name `install` stores it under. */
  function InstallName(path: string): string {
    SplitExt(Split(path).1).0
  }

  /** A successful copy from `source` to `destination`. */
  datatype Copy = Copy(source: string, destination: string)

  /** The process after `install`, whether it created the storage directory, and the copy it made. */
  datatype InstallTrace = InstallTrace(proc: Proc, createdStorage: bool, copied: Option<Copy>)

  /** The file `install` copies: the argument itself when absolute, else the argument under the working directory. */
  function SourcePath(arg: string, workingDir: string): string {
    if IsAbs(arg) then arg else Join(workingDir, arg)
  }

  /** The `install` command. */
  function InstallCommand(args: seq<string>, env: Env, p: Proc): InstallTrace
    requires p.status == Live
  {
    match env.storageDir
    case None => InstallTrace(Report(p, NoHomeMessage), false, None)
    case Some(templateDir) =>
      var needsDir := templateDir !in env.existing;
      if needsDir && env.mkdirFault.Some? then
        InstallTrace(Report(p, "Failed to create directory for storing template scripts:" + Describe(env.mkdirFault.value)), false, None)
      else if |args| < 1 then InstallTrace(Report(p, InstallUsage), needsDir, None)
      else
        var filepath := SourcePath(args[0], env.workingDir);
        if filepath !in env.existing then InstallTrace(Report(p, "Given path does not exist"), needsDir, None)
        else if env.copyFault.Some? then
          InstallTrace(Report(p, "Install failed:\n" + Describe(env.copyFault.value)), needsDir, None)
        else InstallTrace(p, needsDir, Some(Copy(filepath, Join(templateDir, InstallName(filepath)))))
  }

  /** The handler registered for each command, run on a live process. */
  function Handle(c: Command, args: seq<string>, env: Env, p: Proc): Proc {
    if p.status.Exited? then p
    else
      match c
      case Help => p.(stdout := p.stdout + "HELP\n")
      case Install => InstallCommand(args, env, p).proc
      case Run => RunCommand(args, env, p).proc
  }

  // ---------------------------------------------------------------------------
  // Properties of `run`

  /**
    A script is only ever executed from the path `Resolve` chose, after that
    path was found to exist and opened without a fault; while the CLI is
    running that also requires the options to have parsed cleanly.
  */
  lemma RunExecutesResolvedScript(args: seq<string>, env: Env, p: Proc)
    requires p.status == Live
    ensures var r := RunCommand(args, env, p);
      r.executed.Some? ==>
        && |args| >= 1
        && Resolve(args[0], env.workingDir, env.storageDir, env.listing) == Script(r.executed.value)
        && r.executed.value in env.existing
        && env.openFault.None?
        && (p.running ==> ArgParse.ParseArgs(args[1..], RunOptions()).error.None?)
  {
  }

  /**
    Conversely, a resolved script that exists and opens is executed whenever
    the options parse cleanly or the CLI is not running; the process
    stays live exactly when the script completes or `abort` has no effect.
  */
  lemma RunExecutesWhenReady(args: seq<string>, env: Env, p: Proc, path: string)
    requires p.status == Live && |args| >= 1
    requires Resolve(args[0], env.workingDir, env.storageDir, env.listing) == Script(path)
    requires ArgParse.ParseArgs(args[1..], RunOptions()).error.None? || !p.running
    requires path in env.existing && env.openFault.None?
    ensures var r := RunCommand(args, env, p);
      && r.executed == Some(path)
      && (r.proc.status == Live <==> env.script.Completed? || !p.running)
      && r.proc.info == ApplyCalls(p.info, ArgParse.ParseArgs(args[1..], RunOptions()).calls)
  {
    ApplyOptionsResult(args[1..], p);
  }

  /**
    While running, `run` stays live exactly when it has an argument, the
    template resolves, the options parse cleanly, and the script exists,
    opens and completes; every other path reports and exits.
  */
  lemma RunLiveIffSucceeds(args: seq<string>, env: Env, p: Proc)
    requires p.status == Live && p.running
    ensures RunCommand(args, env, p).proc.status == Live <==>
      && |args| >= 1
      && Resolve(args[0], env.workingDir, env.storageDir, env.listing).Script?
      && ArgParse.ParseArgs(args[1..], RunOptions()).error.None?
      && Resolve(args[0], env.workingDir, env.storageDir, env.listing).path in env.existing
      && env.openFault.None?
      && env.script.Completed?
  {
    if |args| >= 1 {
      ApplyOptionsResult(args[1..], p);
    }
  }

  /** `run` with no argument reports its usage line, aborts and executes nothing. */
  lemma RunRejectsNoArgument(env: Env, p: Proc)
    requires p.status == Live
    ensures var r := RunCommand([], env, p);
      && r.executed == None
      && r.proc.stderr == p.stderr + ErrorLine(RunUsage)
      && r.proc.status == (if p.running then Exited(1) else Live)
      && r.proc.info == p.info
  {
  }

  /**
    A name without an extension needs the storage directory: when none can be
    resolved, `run` reports that, aborts and executes nothing.
  */
  lemma RunNoStorageAborts(args: seq<string>, env: Env, p: Proc)
    requires p.status == Live && |args| >= 1
    requires !HasExtension(args[0]) && env.storageDir.None?
    ensures var r := RunCommand(args, env, p);
      && r.executed == None
      && r.proc.stderr == p.stderr + ErrorLine(NoHomeMessage)
      && r.proc.status == (if p.running then Exited(1) else Live)
      && r.proc.info == p.info
  {
  }

  /** A script that does not exist or does not open is reported by its path; `run` aborts and executes nothing. */
  lemma ExecuteRejectsUnreadable(filepath: string, env: Env, p: Proc)
    requires p.status == Live
    requires filepath !in env.existing || env.openFault.Some?
    ensures var r := Execute(filepath, env, p);
      && r.executed == None
      && r.proc.stderr == p.stderr
           + ErrorLine(if filepath !in env.existing then "Can't find file '" + filepath + "'" else "Can't open file '" + filepath + "'")
      && r.proc.status == (if p.running then Exited(1) else Live)
      && r.proc.info == p.info
  {
  }

  /**
    Once the options have been applied, a script that does not exist or does
    not open is reported by its path, `run` aborts, and nothing is executed;
    `template_info` keeps what the flags wrote.
  */
  lemma RunScriptRejectsUnreadable(filepath: string, tokens: seq<string>, env: Env, p: Proc)
    requires p.status == Live
    requires ArgParse.ParseArgs(tokens, RunOptions()).error.None? || !p.running
    requires filepath !in env.existing || env.openFault.Some?
    ensures var r := RunScript(filepath, tokens, env, p);
      && r.executed == None
      && r.proc.stderr == ApplyOptions(tokens, p).stderr
           + ErrorLine(if filepath !in env.existing then "Can't find file '" + filepath + "'" else "Can't open file '" + filepath + "'")
      && r.proc.status == (if p.running then Exited(1) else Live)
      && r.proc.info == ApplyCalls(p.info, ArgParse.ParseArgs(tokens, RunOptions()).calls)
  {
    ApplyOptionsResult(tokens, p);
    var q := ApplyOptions(tokens, p);
    assert q.status == Live && q.running == p.running;
    assert RunScript(filepath, tokens, env, p) == Execute(filepath, env, q);
    ExecuteRejectsUnreadable(filepath, env, q);
  }

  /**
    A script that exists and opens is executed with the `template_info` the
    flags wrote; when it completes, nothing else changes.
  */
  lemma RunScriptExecutesWithOptions(filepath: string, tokens: seq<string>, env: Env, p: Proc)
    requires p.status == Live
    requires ArgParse.ParseArgs(tokens, RunOptions()).error.None? || !p.running
    requires filepath in env.existing && env.openFault.None?
    ensures var r := RunScript(filepath, tokens, env, p);
      && r.executed == Some(filepath)
      && r.proc.info == ApplyCalls(p.info, ArgParse.ParseArgs(tokens, RunOptions()).calls)
      && (env.script.Completed? ==> r.proc == ApplyOptions(tokens, p))
  {
    ApplyOptionsResult(tokens, p);
  }

  /**
    While running, a bad option ends `run` with status 1 before the script's
    existence is checked: the handlers of the flags before it have already written
    their values, and the one error line is the parser's.
  */
  lemma RunStopsOnBadOption(args: seq<string>, env: Env, p: Proc)
    requires p.status == Live && p.running && |args| >= 1
    requires Resolve(args[0], env.workingDir, env.storageDir, env.listing).Script?
    requires ArgParse.ParseArgs(args[1..], RunOptions()).error.Some?
    ensures var r := RunCommand(args, env, p);
      var parsed := ArgParse.ParseArgs(args[1..], RunOptions());
      && r.executed == None
      && r.proc.status == Exited(1)
      && !r.proc.running
      && r.proc.stderr == p.stderr + ErrorLine(ArgParse.ErrorMessage(parsed.error.value))
      && r.proc.info == ApplyCalls(p.info, parsed.calls)
  {
    ApplyOptionsResult(args[1..], p);
  }

  /**
    When the CLI is not running, `abort` returns, so `run` goes on after a
    bad option: the error line is written and the resolved script still runs.
  */
  lemma RunContinuesAfterBadOptionWhenNotRunning(args: seq<string>, env: Env, p: Proc, path: string)
    requires p.status == Live && !p.running && |args| >= 1
    requires Resolve(args[0], env.workingDir, env.storageDir, env.listing) == Script(path)
    requires ArgParse.ParseArgs(args[1..], RunOptions()).error.Some?
    requires path in env.existing && env.openFault.None? && env.script == Completed
    ensures var r := RunCommand(args, env, p);
      && r.executed == Some(path)
      && r.proc.status == Live
      && r.proc.stderr == p.stderr + ErrorLine(ArgParse.ErrorMessage(ArgParse.ParseArgs(args[1..], RunOptions()).error.value))
  {
    ApplyOptionsResult(args[1..], p);
  }

  /** `run script.py --name Widget` executes `script.py` from the working directory with `name` set to `Widget`. */
  lemma RunWithName(env: Env, p: Proc)
    requires p.status == Live
    requires Join(env.workingDir, "script.py") in env.existing && env.openFault.None? && env.script == Completed
    ensures var r := RunCommand(["script.py", "--name", "Widget"], env, p);
      && r.executed == Some(Join(env.workingDir, "script.py"))
      && r.proc.status == Live
      && r.proc.stderr == p.stderr
      && r.proc.info == p.info[NameKey := "Widget"]
  {
    var arg := "script.py";
    assert arg[0] != ExtSep && arg[6] == ExtSep && NoSepFrom(arg, 0);
    assert HasExtension(arg);
    var tokens := ["script.py", "--name", "Widget"][1..];
    assert tokens == ["--name", "Widget"];
    assert tokens[0] in RunOptions() && RunOptions()[tokens[0]] == ArgParse.Spec(1, NameField);
    assert tokens[2..] == [];
    var call := ArgParse.Call("--name", NameField, ["Widget"]);
    assert tokens[1..2] == ["Widget"];
    assert ArgParse.ParseArgs(tokens, RunOptions()) == ArgParse.Parsed([call], None);
    assert ApplyCalls(p.info, [call]) == ApplyCalls(p.info, [])[NameKey := "Widget"];
  }

  // ---------------------------------------------------------------------------
  // Properties of `install`

  /** The name `install` derives never contains a separator. */
  lemma InstallNameNoSep(path: string)
    ensures NoSep(InstallName(path))
  {
    SplitLayout(path);
    var tail := Split(path).1;
    var parts := SplitExt(tail);
    PrefixNoSep(parts.0, parts.1);
  }

  /**
    A successful install copies the existing source (the argument, joined to
    the working directory when relative) into the storage directory under the
    argument's last path segment with its extension removed.
  */
  lemma InstallStoresUnderStem(args: seq<string>, env: Env, p: Proc)
    requires p.status == Live
    ensures var r := InstallCommand(args, env, p);
      r.copied.Some? ==>
        && env.storageDir.Some?
        && |args| >= 1
        && r.copied.value.source == (if IsAbs(args[0]) then args[0] else Join(env.workingDir, args[0]))
        && r.copied.value.source in env.existing
        && r.copied.value.destination == Join(env.storageDir.value, InstallName(args[0]))
        && Split(r.copied.value.destination).1 == InstallName(args[0])
        && r.proc == p
  {
    var r := InstallCommand(args, env, p);
    InstallCopies(args, env, p);
    if r.copied.Some? {
      var source := SourcePath(args[0], env.workingDir);
      JoinKeepsTail(env.workingDir, args[0]);
      assert InstallName(source) == InstallName(args[0]);
      InstallNameNoSep(args[0]);
      JoinedTail(env.storageDir.value, InstallName(args[0]));
    }
  }

  /**
    `install` copies exactly when the storage directory is known and exists
    or can be created, an argument is given, its source exists and the copy
    does not fault; the only copy it makes is of that source, into the
    storage directory, leaving the process as it was.
  */
  lemma InstallCopies(args: seq<string>, env: Env, p: Proc)
    requires p.status == Live
    ensures InstallCommand(args, env, p).copied.Some? <==>
      && env.storageDir.Some?
      && (env.storageDir.value in env.existing || env.mkdirFault.None?)
      && |args| >= 1
      && SourcePath(args[0], env.workingDir) in env.existing
      && env.copyFault.None?
    ensures var r := InstallCommand(args, env, p);
      r.copied.Some? ==>
        && env.storageDir.Some?
        && |args| >= 1
        && r.copied.value == Copy(SourcePath(args[0], env.workingDir), Join(env.storageDir.value, InstallName(SourcePath(args[0], env.workingDir))))
        && SourcePath(args[0], env.workingDir) in env.existing
        && r.proc == p
  {
  }

  /**
    `install` creates the storage directory exactly when one is known, it
    does not exist yet, and `mkdir` succeeds; once it exists, a later
    install does not create it again.
  */
  lemma InstallCreatesStorage(args: seq<string>, env: Env, p: Proc)
    requires p.status == Live
    ensures var r := InstallCommand(args, env, p);
      && (r.createdStorage <==> env.storageDir.Some? && env.storageDir.value !in env.existing && env.mkdirFault.None?)
      && (env.storageDir.Some? && env.storageDir.value !in env.existing && env.mkdirFault.Some? ==>
            r.proc.status == Exited(1) || !p.running)
      && (r.createdStorage ==>
            var again := env.(existing := env.existing + {env.storageDir.value});
            !InstallCommand(args, again, p).createdStorage)
  {
  }

  /**
    An install whose storage directory is usable, whose source exists and
    whose copy does not fault copies the source to the storage directory
    under the source's stem and reports nothing.
  */
  lemma InstallSucceeds(args: seq<string>, env: Env, p: Proc)
    requires p.status == Live && env.storageDir.Some?
    requires env.storageDir.value in env.existing || env.mkdirFault.None?
    requires |args| >= 1 && SourcePath(args[0], env.workingDir) in env.existing && env.copyFault.None?
    ensures var r := InstallCommand(args, env, p);
      && r.copied == Some(Copy(SourcePath(args[0], env.workingDir), Join(env.storageDir.value, InstallName(args[0]))))
      && r.proc == p
  {
    InstallCopies(args, env, p);
    InstallStoresUnderStem(args, env, p);
  }

  /** A missing argument or a source that does not exist is reported and nothing is copied. */
  lemma InstallRejectsBadSource(args: seq<string>, env: Env, p: Proc)
    requires p.status == Live && env.storageDir.Some?
    requires env.storageDir.value in env.existing || env.mkdirFault.None?
    requires |args| == 0 || (if IsAbs(args[0]) then args[0] else Join(env.workingDir, args[0])) !in env.existing
    ensures var r := InstallCommand(args, env, p);
      && r.copied == None
      && r.proc.stderr == p.stderr + ErrorLine(if |args| == 0 then InstallUsage else "Given path does not exist")
      && r.proc.status == (if p.running then Exited(1) else Live)
  {
  }

  /** While running, `install` stays live exactly when it copies. */
  lemma InstallLiveIffCopies(args: seq<string>, env: Env, p: Proc)
    requires p.status == Live && p.running
    ensures var r := InstallCommand(args, env, p);
      r.proc.status == Live <==> r.copied.Some?
  {
    InstallCopies(args, env, p);
  }

  /** Without a home directory `install` reports it, aborts and copies nothing. */
  lemma InstallRejectsNoHome(args: seq<string>, env: Env, p: Proc)
    requires p.status == Live && env.storageDir.None?
    ensures var r := InstallCommand(args, env, p);
      && r.copied == None
      && !r.createdStorage
      && r.proc.stderr == p.stderr + ErrorLine(NoHomeMessage)
      && r.proc.status == (if p.running then Exited(1) else Live)
  {
  }

  /** A missing storage directory that `mkdir` cannot create is reported with the fault, and `install` aborts. */
  lemma InstallRejectsMkdirFault(args: seq<string>, env: Env, p: Proc, f: Fault)
    requires p.status == Live && env.storageDir.Some?
    requires env.storageDir.value !in env.existing && env.mkdirFault == Some(f)
    ensures var r := InstallCommand(args, env, p);
      && r.copied == None
      && r.proc.stderr == p.stderr + ErrorLine("Failed to create directory for storing template scripts:" + f.kind + ": " + f.message)
      && r.proc.status == (if p.running then Exited(1) else Live)
  {
    var m := "Failed to create directory for storing template scripts:" + Describe(f);
    assert m == "Failed to create directory for storing template scripts:" + f.kind + ": " + f.message;
    assert InstallCommand(args, env, p).proc == Report(p, m);
  }

  /** A copy that raises is reported on a line after `Install failed:`, and `install` aborts. */
  lemma InstallRejectsCopyFault(args: seq<string>, env: Env, p: Proc, f: Fault)
    requires p.status == Live && env.storageDir.Some?
    requires env.storageDir.value in env.existing || env.mkdirFault.None?
    requires |args| >= 1 && SourcePath(args[0], env.workingDir) in env.existing
    requires env.copyFault == Some(f)
    ensures var r := InstallCommand(args, env, p);
      && r.copied == None
      && r.proc.stderr == p.stderr + ErrorLine("Install failed:\n" + f.kind + ": " + f.message)
      && r.proc.status == (if p.running then Exited(1) else Live)
  {
  }

  /** Installing `/tmp/x/hello.py` stores the script as `hello`. */
  lemma InstallHello()
    ensures InstallName("/tmp/x/hello.py") == "hello"
  {
    var path := "/tmp/x/hello.py";
    RFindUnique(path, Sep, 6);
    assert Split(path).1 == path[7..] == "hello.py";
    var name := "hello.py";
    assert name[0] != ExtSep && name[5] == ExtSep && NoSepFrom(name, 0);
    assert ExtensionShaped(".py");
    SplitExtUnique(name, "hello", ".py");
  }

  // ---------------------------------------------------------------------------
  // Every command reports exactly when it aborts

  /** `q`'s stderr is `p`'s followed by one `[ ERROR ] ` report ending in a newline. */
  predicate AppendedErrorLine(p: Proc, q: Proc) {
    && |q.stderr| > |p.stderr| + |ErrorPrefix|
    && q.stderr[..|p.stderr|] == p.stderr
    && q.stderr[|p.stderr|..|p.stderr| + |ErrorPrefix|] == ErrorPrefix
    && q.stderr[|q.stderr| - 1] == '\n'
  }

  /** `q` either carries on exactly as `p` did on stderr and still running, or has reported an error and exited with status 1. */
  predicate ReportedIffExited(p: Proc, q: Proc) {
    && (q.status == Live ==> q.stderr == p.stderr && q.running)
    && (q.status != Live ==> q.status == Exited(1) && !q.running && AppendedErrorLine(p, q))
  }

  lemma InstallReportsIffExits(args: seq<string>, env: Env, p: Proc)
    requires p.status == Live && p.running
    ensures ReportedIffExited(p, InstallCommand(args, env, p).proc)
  {
    var r := InstallCommand(args, env, p);
    if r.proc != p {
      var m: string;
      match env.storageDir
      case None => m := NoHomeMessage;
      case Some(templateDir) =>
        if templateDir !in env.existing && env.mkdirFault.Some? {
          m := "Failed to create directory for storing template scripts:" + Describe(env.mkdirFault.value);
        } else if |args| < 1 {
          m := InstallUsage;
        } else if SourcePath(args[0], env.workingDir) !in env.existing {
          m := "Given path does not exist";
        } else {
          m := "Install failed:\n" + Describe(env.copyFault.value);
        }
      assert r.proc == Report(p, m);
      PrintErrorLayout(p, m, true);
    }
  }

  lemma ExecuteReportsIffExits(filepath: string, env: Env, p: Proc)
    requires p.status == Live && p.running
    ensures ReportedIffExited(p, Execute(filepath, env, p).proc)
  {
  }

  lemma RunReportsIffExits(args: seq<string>, env: Env, p: Proc)
    requires p.status == Live && p.running
    ensures ReportedIffExited(p, RunCommand(args, env, p).proc)
  {
    if |args| >= 1 {
      match Resolve(args[0], env.workingDir, env.storageDir, env.listing)
      case NoStorage =>
      case Script(filepath) =>
        ApplyOptionsResult(args[1..], p);
        var q := ApplyOptions(args[1..], p);
        if q.status == Live {
          ExecuteReportsIffExits(filepath, env, q);
        }
    }
  }

  /**
    While the CLI is running, a command either completes without writing any
    error, or writes its error and ends the process with status 1.
  */
  lemma HandleReportsIffExits(c: Command, args: seq<string>, env: Env, p: Proc)
    requires p.status == Live && p.running
    ensures ReportedIffExited(p, Handle(c, args, env, p))
  {
    match c
    case Help =>
    case Install => InstallReportsIffExits(args, env, p);
    case Run => RunReportsIffExits(args, env, p);
  }
}

=== FILE: entry.dfy ===
/**
  `templateman/__main__.py`: `main(args)` picks the command from the first
  argument, turns `running` on and dispatches through `exec_command`. How the
  Python process ends is part of the result: `main` returns a code, or an
  `abort` inside the command raises `SystemExit(1)` through it, or an
  exception escapes.
*/
module Entry {
  import opened Wrappers
  import opened Templateman
  import opened Cli

  /** How a call of `main` ends. */
  datatype Ending = Returned(code: int) | SystemExit(code: int) | Raised(kind: string, message: string)

  /** The status `sys.exit(main(sys.argv[1:]))` leaves: an escaping exception exits with 1. */
  function ExitStatus(e: Ending): int {
    match e
    case Returned(c) => c
    case SystemExit(c) => c
    case Raised(_, _) => 1
  }

  /** A handler called with its arguments. */
  datatype Invocation<H> = Invocation(handler: H, args: seq<string>)

  /** Everything one call of `main` did: the process afterwards, whether help was shown, the dispatch, and the ending. */
  datatype Session<H> = Session(proc: Proc, helpPrinted: bool, dispatched: Option<Invocation<H>>, ending: Ending)

  /** The error `main` prints for a command that is not registered. */
  function UnknownCommandMessage(command: string): string {
    "Unknown command '" + command + "'. Use 'help' to check all commands..."
  }

  /**
    `main(args)` over a registry whose handlers act on the process through
    `handle`. No arguments: help, code 0. An unregistered command: one error
    line, code 1, `running` untouched, nothing dispatched. Otherwise `running`
    is switched on and the handler gets the remaining arguments; the process
    ends with `SystemExit` when the handler aborted and `main` returns 0
    otherwise.
  */
  function Program<H>(args: seq<string>, registry: map<string, H>, handle: (H, seq<string>, Proc) -> Proc, p: Proc): (s: Session<H>)
    ensures s.helpPrinted <==> |args| == 0
    ensures s.dispatched.Some? <==> |args| >= 1 && args[0] in registry
    ensures s.dispatched.Some? ==> s.dispatched.value == Invocation(registry[args[0]], args[1..])
    ensures s.ending.Returned? && s.ending.code == 1 <==> |args| >= 1 && args[0] !in registry
    ensures !s.ending.Raised?
    ensures s.dispatched.None? ==> s.proc.running == p.running && s.proc.status == p.status && s.proc.info == p.info
    ensures |args| >= 1 && args[0] !in registry ==> s.proc.stderr == p.stderr + ErrorLine(UnknownCommandMessage(args[0]))
    ensures s.dispatched.Some? ==>
      var q := handle(registry[args[0]], args[1..], p.(running := true));
      s.proc == q && s.ending == (if q.status.Exited? then SystemExit(q.status.code) else Returned(0))
  {
    if |args| < 1 then Session(p, true, None, Returned(0))
    else if args[0] !in registry then
      PrintErrorLayout(p, UnknownCommandMessage(args[0]), true);
      Session(PrintError(p, UnknownCommandMessage(args[0]), true), false, None, Returned(1))
    else
      var q := p.(running := true);
      match ExecCommand(registry, args[0], args[1..])
      case RuntimeError(message) => Session(q, false, None, Raised("RuntimeError", message))
      case Invoked(h, rest) =>
        var r := handle(h, rest, q);
        Session(r, false, Some(Invocation(h, rest)), if r.status.Exited? then SystemExit(r.status.code) else Returned(0))
  }

  /**
    `main` as written in `templateman/__main__.py`: with no arguments it calls
    `cli.print_help`, which `templateman/cli.py` does not define, so the
    attribute lookup raises.
  */
  function ProgramAsWritten<H>(args: seq<string>, registry: map<string, H>, handle: (H, seq<string>, Proc) -> Proc, p: Proc): Session<H> {
    if |args| < 1 then Session(p, false, None, Raised("AttributeError", "module 'templateman.cli' has no attribute 'print_help'"))
    else Program(args, registry, handle, p)
  }

  /** With no arguments `main` as written ends in an escaping `AttributeError`, so the process exits 1 without any help. */
  lemma EmptyArgsRaisesAsWritten<H>(registry: map<string, H>, handle: (H, seq<string>, Proc) -> Proc, p: Proc)
    ensures var s := ProgramAsWritten([], registry, handle, p);
      s.ending.Raised? && !s.helpPrinted && ExitStatus(s.ending) == 1
  {
  }

  /** The two agree on every non-empty argument list. */
  lemma AsWrittenAgreesWithArguments<H>(args: seq<string>, registry: map<string, H>, handle: (H, seq<string>, Proc) -> Proc, p: Proc)
    requires |args| >= 1
    ensures ProgramAsWritten(args, registry, handle, p) == Program(args, registry, handle, p)
  {
  }

  /** The whole CLI: `main` over the built-in commands, from the state right after import. */
  function RunCli(argv: seq<string>, env: Env): Session<Command> {
    Program(argv, Builtins(), (c: Command, a: seq<string>, q: Proc) => Handle(c, a, env, q), Start(env.workingDir))
  }

  /**
    The CLI exits with 0 or 1, and with 0 exactly when it wrote no error line:
    every error any command reports is followed by its `abort`, which ends
    the process because `main` switched `running` on.
  */
  lemma CliExitsZeroIffNoError(argv: seq<string>, env: Env)
    ensures var s := RunCli(argv, env);
      && (ExitStatus(s.ending) == 0 || ExitStatus(s.ending) == 1)
      && (ExitStatus(s.ending) == 0 <==> s.proc.stderr == [])
  {
    var s := RunCli(argv, env);
    if |argv| >= 1 && argv[0] in Builtins() {
      BuiltinsByName();
      var c := Builtins()[argv[0]];
      HandleReportsIffExits(c, argv[1..], env, Start(env.workingDir).(running := true));
    }
  }

  /** Every registered command name reaches its own handler, and nothing else does. */
  lemma CliDispatchesByName(argv: seq<string>, env: Env)
    ensures var s := RunCli(argv, env);
      && (s.dispatched.Some? <==> |argv| >= 1 && argv[0] in {"help", "install", "run"})
      && (s.dispatched.Some? ==> CommandName(s.dispatched.value.handler) == argv[0] && s.dispatched.value.args == argv[1..])
  {
    BuiltinsByName();
  }

  /** `help` prints `HELP` and nothing else, and the process returns 0. */
  lemma CliHelp(rest: seq<string>, env: Env)
    ensures var s := RunCli(["help"] + rest, env);
      && s.proc.stdout == "HELP\n"
      && s.proc.stderr == []
      && s.ending == Returned(0)
  {
    BuiltinsByName();
    assert (["help"] + rest)[0] == "help";
    assert (["help"] + rest)[1..] == rest;
  }
}

=== FILE: posix_path.dfy ===
/**
  The POSIX behaviour of the few `os.path` functions templateman relies on:
  `isabs`, `join` (two components), `split` and `splitext`, all as pure
  string functions. `splitext` follows Python's `genericpath._splitext`:
  the extension starts at the last `.` of the final path component, and the
  leading dots of that component never start an extension.
*/
module PosixPath {

  const Sep: char := '/'
  const ExtSep: char := '.'

  /** `s` contains no path separator. */
  predicate NoSep(s: string) {
    forall i :: 0 <= i < |s| ==> s[i] != Sep
  }

  /** No separator in `p` at or after index `lo`. */
  predicate NoSepFrom(p: string, lo: int) {
    forall j :: 0 <= j < |p| && lo <= j ==> p[j] != Sep
  }

  /** Every character of `p` in `[lo, hi)` is a dot. */
  predicate DotsBetween(p: string, lo: int, hi: int) {
    forall j :: lo <= j < hi && 0 <= j < |p| ==> p[j] == ExtSep
  }

  /** `os.path.isabs` on POSIX. */
  predicate IsAbs(s: string) {
    |s| > 0 && s[0] == Sep
  }

  /** Index of the last occurrence of `c` in `s`, or -1 (Python's `str.rfind` for one character). */
  function RFind(s: string, c: char): (r: int)
    ensures -1 <= r < |s|
    ensures r >= 0 ==> s[r] == c
    ensures forall j :: r < j < |s| ==> s[j] != c
  {
    if |s| == 0 then -1
    else if s[|s| - 1] == c then |s| - 1
    else RFind(s[..|s| - 1], c)
  }

  /**
    The final component of `p` has a dot preceded, inside that component, by a
    character that is not a dot: the condition under which `splitext` finds an
    extension. Stated without reference to `RFind`.
  */
  ghost predicate HasExtension(p: string) {
    exists m, k :: 0 <= m < k < |p| && p[m] != ExtSep && p[k] == ExtSep && NoSepFrom(p, m)
  }

  /** An extension as `splitext` returns it: empty, or one dot followed by neither dots nor separators. */
  predicate ExtensionShaped(e: string) {
    e == [] || (e[0] == ExtSep && NoSep(e) && forall i :: 1 <= i < |e| ==> e[i] != ExtSep)
  }

  /** `os.path.splitext(p)` on POSIX, as `(root, ext)`. */
  function SplitExt(p: string): (r: (string, string))
    ensures r.0 + r.1 == p
    ensures ExtensionShaped(r.1)
  {
    var sep := RFind(p, Sep);
    var dot := RFind(p, ExtSep);
    if dot > sep && !DotsBetween(p, sep + 1, dot) then
      LastDotStartsExtension(p, sep, dot);
      (p[..dot], p[dot..])
    else (p, [])
  }

  /** The text from the last dot on, when that dot follows the last separator, is extension-shaped. */
  lemma LastDotStartsExtension(p: string, sep: int, dot: int)
    requires sep == RFind(p, Sep) && dot == RFind(p, ExtSep) && sep < dot
    ensures ExtensionShaped(p[dot..])
  {
    var e := p[dot..];
    forall i | 0 <= i < |e|
      ensures e[i] != Sep && (i >= 1 ==> e[i] != ExtSep)
    {
      assert e[i] == p[dot + i];
    }
  }

  /** `splitext` finds an extension exactly when the final component has a dot after a non-dot character. */
  lemma SplitExtFindsExtension(p: string)
    ensures SplitExt(p).1 != [] <==> HasExtension(p)
  {
    if HasExtension(p) {
      var m, k :| 0 <= m < k < |p| && p[m] != ExtSep && p[k] == ExtSep && NoSepFrom(p, m);
      WitnessGivesExtension(p, m, k);
    }
    if SplitExt(p).1 != [] {
      ExtensionGivesWitness(p);
    }
  }

  lemma WitnessGivesExtension(p: string, m: int, k: int)
    requires 0 <= m < k < |p| && p[m] != ExtSep && p[k] == ExtSep && NoSepFrom(p, m)
    ensures SplitExt(p).1 != []
  {
    var sep := RFind(p, Sep);
    assert sep < m;
  }

  lemma ExtensionGivesWitness(p: string)
    requires SplitExt(p).1 != []
    ensures HasExtension(p)
  {
    var sep := RFind(p, Sep);
    var dot := RFind(p, ExtSep);
    var m :| sep + 1 <= m < dot && p[m] != ExtSep;
    assert NoSepFrom(p, m);
  }

  /**
    The three properties `SplitExtFindsExtension` and `SplitExt`'s contract
    state determine the split: any `(root, ext)` that has them is `SplitExt(p)`.
  */
  lemma SplitExtUnique(p: string, root: string, ext: string)
    requires root + ext == p
    requires ExtensionShaped(ext)
    requires ext != [] <==> HasExtension(p)
    ensures (root, ext) == SplitExt(p)
  {
    var r := SplitExt(p);
    SplitExtFindsExtension(p);
    if ext != [] {
      assert r.1 != [];
      assert ext == p[|p| - |ext|..] == r.1;
    }
    assert root == p[..|p| - |ext|];
    assert r.0 == p[..|p| - |r.1|];
  }

  /**
    The loop of `genericpath._splitext`: skip the leading dots of the final
    component and report an extension only when a non-dot character precedes
    the last dot.
  */
  method SplitExtScan(p: string) returns (root: string, ext: string)
    ensures (root, ext) == SplitExt(p)
  {
    var sepIndex := RFind(p, Sep);
    var dotIndex := RFind(p, ExtSep);
    if dotIndex > sepIndex {
      var filenameIndex := sepIndex + 1;
      while filenameIndex < dotIndex
        invariant sepIndex + 1 <= filenameIndex <= dotIndex
        invariant DotsBetween(p, sepIndex + 1, filenameIndex)
      {
        if p[filenameIndex] != ExtSep {
          return p[..dotIndex], p[dotIndex..];
        }
        filenameIndex := filenameIndex + 1;
      }
    }
    return p, [];
  }

  /** `os.path.join(a, b)` for two components on POSIX. */
  function Join(a: string, b: string): string {
    if IsAbs(b) then b
    else if a == [] || a[|a| - 1] == Sep then a + b
    else a + [Sep] + b
  }

  /**
    An absolute `b` discards `a`; otherwise the result is `a`, then one
    separator exactly when `a` is non-empty and does not already end in one,
    then `b`.
  */
  lemma JoinLayout(a: string, b: string)
    ensures var r := Join(a, b);
      && (IsAbs(b) ==> r == b)
      && (!IsAbs(b) ==> |a| + |b| <= |r| <= |a| + |b| + 1 && r[..|a|] == a && r[|r| - |b|..] == b)
      && (!IsAbs(b) ==> (|r| == |a| + |b| + 1 <==> a != [] && a[|a| - 1] != Sep))
      && (!IsAbs(b) && |r| == |a| + |b| + 1 ==> r[|a|] == Sep)
  {
  }

  /** The sep-free tail of `p`: the `tail` of `os.path.split(p)`. */
  function Basename(p: string): string {
    p[RFind(p, Sep) + 1..]
  }

  /** `s` without its trailing separators (`str.rstrip('/')`). */
  function RStripSep(s: string): (r: string)
    ensures |r| <= |s| && r == s[..|r|]
    ensures r == [] || r[|r| - 1] != Sep
    ensures forall i :: |r| <= i < |s| ==> s[i] == Sep
  {
    if |s| > 0 && s[|s| - 1] == Sep then RStripSep(s[..|s| - 1]) else s
  }

  /** `os.path.split(p)` on POSIX, as `(head, tail)`. */
  function Split(p: string): (string, string) {
    (Head(p), Basename(p))
  }

  /**
    `split` cuts `p` into a head that is a prefix of it and a separator-free
    tail that is a suffix of it, with only separators between the two, and at
    least one of them unless the tail is all of `p`. The head keeps no
    trailing separator, unless everything before the tail is separators, in
    which case the head is all of that.
  */
  lemma SplitLayout(p: string)
    ensures var r := Split(p);
      && NoSep(r.1) && |r.1| <= |p| && p[|p| - |r.1|..] == r.1
      && (|r.1| < |p| ==> p[|p| - |r.1| - 1] == Sep)
      && |r.0| <= |p| - |r.1| && r.0 == p[..|r.0|]
      && (forall i :: |r.0| <= i < |p| - |r.1| ==> p[i] == Sep)
      && (r.0 == [] || r.0[|r.0| - 1] != Sep || AllSep(r.0))
      && (AllSep(r.0) ==> |r.0| == |p| - |r.1|)
  {
  }

  /** `s` consists of separators only (vacuously so when empty). */
  predicate AllSep(s: string) {
    forall i :: 0 <= i < |s| ==> s[i] == Sep
  }

  /** A prefix of a separator-free string is separator-free. */
  lemma PrefixNoSep(a: string, b: string)
    requires NoSep(a + b)
    ensures NoSep(a)
  {
    forall i | 0 <= i < |a|
      ensures a[i] != Sep
    {
      assert a[i] == (a + b)[i];
    }
  }

  /**
    The head of `split`: everything up to the last separator, with trailing
    separators removed unless it consists of separators only.
  */
  function Head(p: string): string {
    var head := p[..RFind(p, Sep) + 1];
    if head != [] && !AllSep(head) then RStripSep(head) else head
  }

  /** The three facts in `RFind`'s contract determine its result. */
  lemma RFindUnique(s: string, c: char, r: int)
    requires -1 <= r < |s|
    requires r >= 0 ==> s[r] == c
    requires forall j :: r < j < |s| ==> s[j] != c
    ensures RFind(s, c) == r
  {
  }

  /** The last `c` of `x + y` is the last one of `y` if it has any, and otherwise the last one of `x`. */
  lemma RFindConcat(x: string, y: string, c: char)
    ensures RFind(x + y, c) == if RFind(y, c) >= 0 then |x| + RFind(y, c) else RFind(x, c)
  {
    var s := x + y;
    var i := RFind(y, c);
    if i >= 0 {
      assert s[|x| + i] == y[i];
      forall j | |x| + i < j < |s|
        ensures s[j] != c
      {
        assert s[j] == y[j - |x|];
      }
      RFindUnique(s, c, |x| + i);
    } else {
      var k := RFind(x, c);
      forall j | k < j < |s|
        ensures s[j] != c
      {
        if j >= |x| {
          assert s[j] == y[j - |x|];
        } else {
          assert s[j] == x[j];
        }
      }
      if k >= 0 {
        assert s[k] == x[k];
      }
      RFindUnique(s, c, k);
    }
  }

  /** Text ending in a separator never contributes to the basename of what follows it. */
  lemma BasenameAfterSep(pre: string, b: string)
    requires pre == [] || pre[|pre| - 1] == Sep
    ensures Basename(pre + b) == Basename(b)
  {
    RFindConcat(pre, b, Sep);
    assert RFind(pre, Sep) == |pre| - 1;
    var i := RFind(b, Sep);
    assert (pre + b)[|pre| + i + 1..] == b[i + 1..];
  }

  /**
    Joining a directory in front of `b` never changes the tail `split` returns:
    the basename of `join(a, b)` is the basename of `b`.
  */
  lemma JoinKeepsTail(a: string, b: string)
    ensures Split(Join(a, b)).1 == Split(b).1
  {
    assert Split(Join(a, b)).1 == Basename(Join(a, b));
    if !IsAbs(b) {
      var pre := if a == [] || a[|a| - 1] == Sep then a else a + [Sep];
      assert Join(a, b) == pre + b;
      BasenameAfterSep(pre, b);
    }
  }

  /** A sep-free component joined under a directory is that directory entry's tail. */
  lemma JoinedTail(dir: string, name: string)
    requires NoSep(name)
    ensures Split(Join(dir, name)).1 == name
  {
    JoinKeepsTail(dir, name);
    assert RFind(name, Sep) == -1;
  }
}

=== FILE: templateman.dfy ===
/**
  The shared context of `templateman/__init__.py`: the process-wide
  `running` flag, the `template_info` dictionary with its `'UNKNOWN'`
  sentinel, the `[ ERROR ] ` line written by `print_error`, the `abort`
  primitive and the `require_arguments` gate templates call.

  The process is a value `Proc`; `sys.exit(1)` inside `abort` is the terminal
  status `Exited(1)`, after which nothing else runs.
*/
module Templateman {
  import opened Wrappers

  /** The sentinel `template_info` holds for a parameter nobody supplied. */
  const Unset: string := "UNKNOWN"
  const ErrorPrefix: string := "[ ERROR ] "

  const NameKey: string := "name"
  const AuthorKey: string := "author"
  const OutputDirectoryKey: string := "output_directory"

  datatype Status = Live | Exited(code: int)

  /**
    The observable state of one CLI process: the `running` flag, the
    `template_info` dictionary, what was written to stderr and stdout, and
    whether `sys.exit` has ended the process.
  */
  datatype Proc = Proc(running: bool, info: map<string, string>, stderr: string, stdout: string, status: Status)

  /** `template_info` as the module initialises it. */
  function DefaultInfo(workingDir: string): map<string, string> {
    map[NameKey := Unset, OutputDirectoryKey := workingDir, AuthorKey := Unset]
  }

  /** The process right after `import templateman`: not running, default context, nothing written. */
  function Start(workingDir: string): Proc {
    Proc(false, DefaultInfo(workingDir), [], [], Live)
  }

  /** `template_info.get(key)`. */
  function Lookup(info: map<string, string>, key: string): Option<string> {
    if key in info then Some(info[key]) else None
  }

  /** One complete error line as `print_error` writes it with its default newline. */
  function ErrorLine(message: string): string {
    ErrorPrefix + message + "\n"
  }

  /** `print_error(message, add_newline)`. */
  function PrintError(p: Proc, message: string, addNewline: bool): Proc {
    var written := p.stderr + ErrorPrefix + message;
    p.(stderr := if addNewline then written + "\n" else written)
  }

  /**
    `print_error` appends the prefix, then the message, then a newline
    exactly when asked to, and changes nothing but stderr.
  */
  lemma PrintErrorLayout(p: Proc, message: string, addNewline: bool)
    ensures var q := PrintError(p, message, addNewline);
      && q == p.(stderr := q.stderr)
      && |q.stderr| == |p.stderr| + |ErrorPrefix| + |message| + (if addNewline then 1 else 0)
      && q.stderr[..|p.stderr|] == p.stderr
      && q.stderr[|p.stderr|..|p.stderr| + |ErrorPrefix|] == ErrorPrefix
      && q.stderr[|p.stderr| + |ErrorPrefix|..|p.stderr| + |ErrorPrefix| + |message|] == message
      && (addNewline <==> |q.stderr| > |p.stderr| + |ErrorPrefix| + |message|)
      && (addNewline ==> q.stderr[|q.stderr| - 1] == '\n')
  {
  }

  /** `abort()`: ends a running process with status 1 and is a no-op otherwise. */
  function Abort(p: Proc): (q: Proc)
    ensures !q.running
    ensures p.running ==> q.status == Exited(1)
    ensures !p.running ==> q == p
    ensures q.info == p.info && q.stderr == p.stderr && q.stdout == p.stdout
  {
    if p.running then p.(running := false, status := Exited(1)) else p
  }

  /** `print_error(message)` followed by `abort()`, the shape of every error path. */
  function Report(p: Proc, message: string): Proc {
    Abort(PrintError(p, message, true))
  }

  /** A second `abort` after the first never has any effect. */
  lemma AbortIdempotent(p: Proc)
    ensures Abort(Abort(p)) == Abort(p)
    ensures p.running ==> Abort(p).status == Exited(1) && Abort(Abort(p)).status == Exited(1)
  {
  }

  function MissingMessage(name: string): string {
    "Missing required argument '" + name + "'"
  }

  /** `require_arguments` flags `name` exactly when its value is the sentinel. */
  predicate IsUnset(info: map<string, string>, name: string) {
    Lookup(info, name) == Some(Unset)
  }

  /** The names `require_arguments` would flag, in argument order. */
  function Missing(info: map<string, string>, names: seq<string>): (r: seq<string>)
    ensures |r| <= |names|
    ensures forall n :: n in r <==> n in names && IsUnset(info, n)
  {
    if |names| == 0 then []
    else if IsUnset(info, names[0]) then [names[0]] + Missing(info, names[1..])
    else Missing(info, names[1..])
  }

  /** The error lines for a sequence of missing names. */
  function MissingLines(names: seq<string>): string {
    if |names| == 0 then [] else ErrorLine(MissingMessage(names[0])) + MissingLines(names[1..])
  }

  /** `require_arguments(*names)`: checks the names left to right until the process has exited. */
  function RequireArguments(p: Proc, names: seq<string>): Proc
    decreases |names|
  {
    if |names| == 0 || p.status.Exited? then p
    else
      var checked := if IsUnset(p.info, names[0]) then Report(p, MissingMessage(names[0])) else p;
      RequireArguments(checked, names[1..])
  }

  /** When not running, `abort` returns, so every missing name is reported, in order, and nothing else changes. */
  lemma {:induction false} RequireArgumentsReportsAll(p: Proc, names: seq<string>)
    requires !p.running && p.status == Live
    ensures RequireArguments(p, names) == p.(stderr := p.stderr + MissingLines(Missing(p.info, names)))
    decreases |names|
  {
    if |names| > 0 {
      var rest := names[1..];
      if IsUnset(p.info, names[0]) {
        var checked := Report(p, MissingMessage(names[0]));
        assert checked == p.(stderr := p.stderr + ErrorLine(MissingMessage(names[0])));
        RequireArgumentsReportsAll(checked, rest);
        assert Missing(p.info, names) == [names[0]] + Missing(p.info, rest);
        assert MissingLines([names[0]] + Missing(p.info, rest))
          == ErrorLine(MissingMessage(names[0])) + MissingLines(Missing(p.info, rest));
      } else {
        RequireArgumentsReportsAll(p, rest);
      }
    }
  }

  /** When running, the first missing name ends the process with status 1 and only its line is written. */
  lemma {:induction false} RequireArgumentsStopsAtFirst(p: Proc, names: seq<string>)
    requires p.running && p.status == Live
    ensures Missing(p.info, names) == [] ==> RequireArguments(p, names) == p
    ensures Missing(p.info, names) != [] ==>
      RequireArguments(p, names)
      == p.(running := false, status := Exited(1), stderr := p.stderr + ErrorLine(MissingMessage(Missing(p.info, names)[0])))
    decreases |names|
  {
    if |names| > 0 && !IsUnset(p.info, names[0]) {
      RequireArgumentsStopsAtFirst(p, names[1..]);
    }
  }

  /**
    On the context `templateman` starts with, only `name` and `author` can
    fail the gate: `output_directory` holds the working directory, which is an
    absolute path and so never the sentinel, and other keys are absent.
  */
  lemma FreshContextGate(workingDir: string, names: seq<string>)
    requires |workingDir| > 0 && workingDir[0] == '/'
    ensures forall n :: n in Missing(DefaultInfo(workingDir), names) <==> n in names && (n == NameKey || n == AuthorKey)
    ensures RequireArguments(Start(workingDir), names) == Start(workingDir).(stderr := MissingLines(Missing(DefaultInfo(workingDir), names)))
  {
    assert workingDir != Unset;
    RequireArgumentsReportsAll(Start(workingDir), names);
  }
}

=== FILE: wrappers.dfy ===
/** The optional value used throughout the model for Python's `None`-or-value results. */
module Wrappers {

  /** `None` or `Some(value)`: Python's `Optional[T]`. */
  datatype Option<+T> = None | Some(value: T)
}
